=== FILE: README.md ===
# Image annotation bookkeeping, in Dafny

Two plug-ins for a raster image editor let a user select a region of a photo,
give it a label, and save it as a mask. Almost all of their code is widget
layout and calls into the editor's procedure database. Inside the button
handlers, though, sits a small piece of bookkeeping, and this project models
it as pure transitions and proves what it keeps true.

- `annotator.dfy`, module `Annotator`, covers `image-annotator.py`. The state
  is the annotation ledger: records `{id, filename, label}`, the next id
  `curr_id`, the list-view rows, the labels offered in the label selector, and
  the contents of the JSON file. The transitions are opening the window
  (with path derivation and reloading an existing file), adding a label,
  saving a mask and deleting the selected row. `Run` applies any sequence of
  clicks.
- `annotations.dfy`, module `Annotations`, covers `image-annotations.py`. The
  state is two maps from region id to label and to exported vector path, the
  list-view rows, and the counters behind the spin button. The transitions are
  opening, moving the spin button, saving a mask, and export. Export derives
  the mask and JSON file names and builds the JSON object.
- `text.dfy`, module `Text`, holds the string work both files rely on:
  `str(n)`, `int(s)`, `str.replace(' ', '_')`, `str.rfind`, and the POSIX
  behaviour of `os.path.split`, `os.path.join` and `os.path.splitext`.
- `common.dfy`, module `Common`, holds `Option`.

Host results become parameters. These are whether the selection is empty,
which selector entry is active (in `Annotator` an index into the offered
labels or `None`; in `Annotations` the active text as an `Option<string>`),
which list row is selected, whether removing a mask file fails, the spin
button's value, the vector path string the editor exports, and the parsed
contents of an existing annotation file.

The main invariant of the ledger is `Annotator.Valid`. It has five parts:
- every stored id is below `curr_id`;
- ids are pairwise distinct;
- the rows mirror the records;
- the file holds exactly the in-memory ledger;
- every stored label is offered in the selector.

Opening on a file whose ids are pairwise distinct establishes it (every file
the plug-in writes is one). Adding a label, saving and deleting preserve it,
and `RunValid` extends it to any session whose deletes are ordered as in
`DeleteChecked` (see "## Findings"). The delete as written keeps every part
except the file (`DeleteAsWrittenKeepsFreshness`).
For the region maps, `Annotations.Valid` says six things:
- the spin value lies in `[1, upper]`, with `upper == max_id`;
- `region_id` is at most `max_id`;
- both maps have the same keys;
- every key lies in `[1, max_id)`;
- every region's current label is shown in some row;
- the base name contains no '/'.

Two facts about ids and the file are worth stating plainly:
- Ids are never reused within a session: `RunValid` shows the counter never
  decreases, and `DeleteAsWrittenKeepsFreshness` shows that even the delete as
  written keeps ids fresh and the counter in place. Across sessions,
  however, numbering resumes at the largest stored id plus one
  (`OpenResumesAfterLargestId`). So after the highest record is deleted, its
  id comes back when the image is reopened
  (`Annotator.ReopenCounterNotAhead` states only `<=`).
- The JSON file holds the in-memory ledger, except that a new annotation
  directory starts with an empty file rather than `[]`. `DiskInSync` treats the
  empty file as the empty ledger. Reloading does not rewrite the file.

## Model

| member | source | states |
|---|---|---|
| Text.NatToString | image-annotator.py:254-255 | `str(n)` is a non-empty digit string with no leading zero unless n is 0 |
| Text.ParseNat | image-annotator.py:195 | `int(s)` succeeds exactly on non-empty digit strings |
| Text.ParseNatToString | image-annotator.py:195-196 | reading back the id text that `str` wrote gives the id: the delete handler's `int(idx)` recovers the record id |
| Text.NatToStringInjective | image-annotator.py:254-255 | distinct ids have distinct decimal spellings, in both directions |
| Text.ReplaceSpaces | image-annotations.py:168 | `replace(' ', '_')` keeps the length, maps each space to `_`, keeps every other character, and leaves no space |
| Text.RFind | image-annotator.py:38 | the last index holding the character, or -1, with no later occurrence |
| Text.RStripSlashes | image-annotator.py:38 | strips exactly the trailing run of '/' from a prefix of the input |
| Text.PathSplit | image-annotator.py:38 | `os.path.split`: the tail is the maximal '/'-free suffix; the head is the rest minus its separator slashes; the head keeps no trailing '/' unless it is all slashes, and a head of only slashes (the root directory) is kept whole |
| Text.JoinThenSplit | image-annotator.py:40-41 | splitting `os.path.join(a, b)` for a '/'-free name b gives back (normalised a, b) |
| Text.SplitExt | image-annotator.py:39 | `os.path.splitext`: root + ext is the input; when the last '.' lies in the final component and a non-dot precedes it there, root is everything before that dot and ext the rest; otherwise ext is empty |
| Text.PathJoinShape | image-annotator.py:40-41 | `os.path.join(a, b)`: an absolute b replaces a; otherwise the result starts with a and ends with b, with one '/' between them exactly when a is non-empty and does not end in '/' |
| Annotator.DerivePaths | image-annotator.py:38-41 | the root is the image's directory as `os.path.split` gives it, and base plus extension is its file name |
| Annotator.DerivePathsBase | image-annotator.py:38-39 | the base name plus extension is the image's file name and the base has no '/'; when the file name has a last dot with a non-dot before it, the base is everything before that dot and the extension the rest, and otherwise the base is the whole name and the extension is empty |
| Annotator.PathsForLayout | image-annotator.py:40-41 | the annotation directory splits into the image directory and `<base>_annotations`; the annotation file into that directory and `<base>_annotations.json` |
| Annotator.DerivePathsLayout | image-annotator.py:38-41 | the same layout for the paths derived from the image's full path |
| Annotator.MaskNameReadsBack | image-annotator.py:254-261 | the mask name starts with the base name and `_`, ends in `.png`, and the digits between parse back to the record's id |
| Annotator.MaskNameInjective | image-annotator.py:254-261 | `<base>_<id>.png` names of two ids coincide only when the ids do, so a save never overwrites another record's mask |
| Annotator.RowsOf | image-annotator.py:78 | reloading shows one row `(label, str(id))` per loaded record, in order |
| Annotator.RunningMax | image-annotator.py:77 | the loop's running `max(v['id'], curr_id)` bounds every id and the start value, and is one of them |
| Annotator.DistinctLabels | image-annotator.py:72-85 | the label set offers every loaded label, nothing else, each once |
| Annotator.RemoveId | image-annotator.py:196 | the filter keeps exactly the records whose id differs, never adding one |
| Annotator.RemoveIdAppend | image-annotator.py:196 | the filter distributes over concatenation, so kept records stay in their original order |
| Annotator.RemoveAbsentId | image-annotator.py:196 | filtering out an id no record carries changes nothing |
| Annotator.RemoveIdAt | image-annotator.py:195-197 | with distinct ids, removing the id of record i removes exactly record i |
| Annotator.FirstWithId | image-annotator.py:195 | `[...][0]`: the first record with the id, or -1 when there is none (where the handler raises) |
| Annotator.Repopulate | image-annotator.py:67-88 | an empty file or empty array changes nothing; otherwise records and rows are appended, the newly offered labels are exactly the loaded labels, each once, and `curr_id` becomes one above the largest of its old value and the loaded ids |
| Annotator.OpenKeepingText | image-annotator.py:31-60 | no file name gives no window; a new directory gives an empty ledger with `curr_id` 0 and an empty file; an existing file is loaded, whatever its text: the window is exactly the loaded ledger, with its rows, offered labels and resumed counter, and the file is what the window holds |
| Annotator.Open | image-annotator.py:31-81 | as the plug-in runs under Python 2: no window when there is no file name or when a loaded record's file name or label has a character beyond ASCII (repopulate's `str()` raises); otherwise the window `OpenKeepingText` builds |
| Annotator.AddLabel | image-annotator.py:211-219 | the entry text is appended to the selector and nothing else changes |
| Annotator.ActiveText | image-annotator.py:233 | the active selector text, when there is one, is one of the offered labels |
| Annotator.SaveMask | image-annotator.py:226-268 | refused, with nothing changed, when the selection is empty or no label is active; otherwise appends exactly `{curr_id, base + '_' + str(curr_id) + '.png', label}` and its row, rewrites the file with the new ledger, increments `curr_id` by 1, and reports the mask path as the annotation directory joined with the record's file name |
| Annotator.DeleteSelected | image-annotator.py:183-204 | succeeds exactly when a row is selected, its id text parses, and some record has that id; it then reports the first record with that id (the one whose mask file is removed), removes every record with the id and that row, keeps `curr_id`, and rewrites the file; otherwise nothing changes |
| Annotator.DeleteAsWritten | image-annotator.py:194-201 | when the mask file is already gone, the handler raises after the ledger and the rows have changed, the file keeps its old contents, and `curr_id`, the offered labels and the paths stay as they were; otherwise it is the ordinary delete |
| Annotator.DeleteChecked | image-annotator.py:194-201 | when the mask file cannot be removed, the handler raises and nothing changes; otherwise it is the ordinary delete |
| Annotator.LoadResumesAfterLargestId | image-annotator.py:47-82 | after loading a non-empty array, `curr_id` is one above the largest loaded id; from an empty file or array, the ledger is empty and `curr_id` is 0 |
| Annotator.OpenResumesAfterLargestId | image-annotator.py:46-82 | opening the window on a non-empty annotation file with ASCII text resumes `curr_id` one above the largest loaded id |
| Annotator.LoadedValid | image-annotator.py:45-88 | loading a file whose ids are distinct establishes the invariant |
| Annotator.OpenValid | image-annotator.py:31-60 | opening the window on a file whose ids are pairwise distinct establishes the invariant whenever a window is built |
| Annotator.AddLabelValid | image-annotator.py:216 | adding a label preserves the invariant |
| Annotator.SaveValid | image-annotator.py:254-268 | saving preserves freshness, distinct ids, the mirrored rows, the file and the offered labels |
| Annotator.DeleteRowRemovesItsRecord | image-annotator.py:190-197 | deleting row i of a valid window reports record i and removes exactly it, keeping the rest in order |
| Annotator.DropValid | image-annotator.py:195-201 | removing one record, its row and rewriting the file keeps the invariant |
| Annotator.DeleteValid | image-annotator.py:194-201 | deleting preserves the invariant |
| Annotator.DeleteAsWrittenDesyncs | image-annotator.py:194-201 | as written, deleting a row whose mask file is gone leaves the file out of step with the ledger, and the deleted record comes back on reopening |
| Annotator.DeleteAsWrittenKeepsFreshness | image-annotator.py:194-201 | even as written, every delete keeps ids fresh and distinct, the rows mirroring the records, the labels offered, and `curr_id` unchanged |
| Annotator.SavedNonAsciiLabelCannotReopen | image-annotator.py:79-81 | as written, saving a mask under a label with a character beyond ASCII leaves a file from which the window cannot be opened again |
| Annotator.OpenKeepingTextReopens | image-annotator.py:79-81 | keeping the loaded text as it is, a file in step with a window's ledger reopens as that ledger, whatever its characters |
| Annotator.DeleteCheckedValid | image-annotator.py:194-201 | the delete with the removal checked first keeps the invariant in every case |
| Annotator.MirrorIsRowsOf | image-annotator.py:78 | rows that mirror the ledger are exactly the rows a reload shows |
| Annotator.ReopenSameLedger | image-annotator.py:79-81 | reloading, with the text kept as it is, the file a valid window wrote gives the same ledger |
| Annotator.ReopenSameRows | image-annotator.py:78 | reloading shows the same rows |
| Annotator.ReopenCounterNotAhead | image-annotator.py:77-82 | after reloading, numbering resumes no later than where the session stood |
| Annotator.RunValid | image-annotator.py:183-268 | over any sequence of add-label, save and delete clicks, with deletes ordered as in `DeleteChecked`, the invariant holds and `curr_id` never decreases |
| Annotations.IdToRgb | image-annotations.py:210-211 | `id2rgb(v)` is the grey triple (v, v, v) |
| Annotations.MaskLevel | image-annotations.py:130-133 | the grey an 8-bit mask keeps for a channel value: the value itself up to 255, and 255 above |
| Annotations.MaskLevelsCollide | image-annotations.py:130-133 | two regions leave the same grey in the mask exactly when they are the same region or both ids are 255 or more |
| Annotations.RowTextReadsBack | image-annotations.py:143 | in a row `(v) label` the digits from just after `(` to the first `)` parse to v, and the label is what follows `) ` |
| Annotations.RowTextInjective | image-annotations.py:143-144 | a row `(v) label` determines both v and the label |
| Annotations.Open | image-annotations.py:53-92 | the image name and base come from the path; maps and list start empty; `region_id`, `max_id`, the spin value and its upper bound start at 1; the mask and annotation directories are `masks/` and `annotations/` joined to the image's directory |
| Annotations.Spin | image-annotations.py:56-57 | moving the spin button within `[1, upper]` changes only its value: maps, rows, counters, image name, base name and directories stay as they were |
| Annotations.SaveMask | image-annotations.py:116-151 | refused, with nothing changed, without a selection or an active label. Otherwise, for spin value v: paints grey v; sets `region_db[v]` and `path_db[v]`, with all other keys unchanged; appends one row `(v) label`; sets `region_id = v + 1`, `max_id = max(old, v + 1)` and the spin value to `max_id`. The image name, base name and directories never change |
| Annotations.Export | image-annotations.py:155-201 | both file names are the base with spaces replaced by `_`, plus `_mask.png` or `_annotations.json`, with no space left; the record's `mask` is `'masks/' + mask filename`, and it carries the image name and both maps; the mask and annotation paths are those names joined to the mask and annotation directories |
| Annotations.ExportRecordNamesMask | image-annotations.py:168-196 | the record's `mask` entry, read relative to the image's directory, names exactly the mask file export writes |
| Annotations.OpenValid | image-annotations.py:53-92 | a fresh session satisfies the invariant |
| Annotations.SpinValid | image-annotations.py:56-57 | moving the spin button keeps the invariant |
| Annotations.SaveValid | image-annotations.py:129-151 | saving keeps equal key sets, keys in `[1, max_id)`, the spin value in range, and a row per region; `max_id` never decreases; afterwards `upper == max_id` |
| Annotations.OverwriteKeepsOldRow | image-annotations.py:141-144 | saving over a labelled id replaces its label but leaves the old row beside the new one, and the number of regions stays the same |
| Annotations.ExportFileNames | image-annotations.py:168-190 | the mask and annotation paths end in exactly the derived file names |
| Annotations.ExportRecordConsistent | image-annotations.py:192-196 | in the exported record every labelled region has a path and every id lies in `[1, max_id)` |

## Left out

- GTK widgets, layout, the list-view rendering and `treeview_changed` auto-scroll are not modelled. They are presentation only; the rows appear as a sequence of values.
- Procedure-database calls (layer creation and fill, antialias settings, `file_png_save*`, `plug_in_sel2path`, messages, display flushes) are not modelled. They are host API; their results enter as parameters.
- The undo group opened at the start of the second plug-in's save and left open on a refused save is not modelled. It is host API with no effect on the bookkeeping.
- File-system effects (`os.makedirs`, `os.stat`, writing the mask PNGs) are not modelled. Only the JSON file's contents are kept, as `disk`. Of `os.remove`, only whether it fails enters, as `maskMissing`. The record a delete reports is the one whose mask file the handler removes.
- Errors other than "directory exists" from `os.makedirs`, and a missing annotation file in an existing directory, are not modelled. Both end in an uncaught exception.
- JSON encoding and decoding are not modelled. A loaded file is an already-parsed `Stored`, and the older variant's integer keys are kept as numbers.
- Record ids are natural numbers. Negative ids, which only a hand-edited file could hold, are not modelled.
- The second plug-in's `add_label_on_click` is not modelled. Only the selector's active text matters to the maps (it is what `region_db` stores), and it enters as an `Option<string>`.
- `reset_and_quit` and `selection_area_setup` are not modelled. They only restore a host setting and create a layer.
- Text.ParseNat: accepts only plain decimal digits, while Python's `int` also takes signs and surrounding blanks. The ids it reads were written by `str` on a natural number.
- Annotator.Repopulate: states which labels are offered, not their order, because Python's set iteration order is unspecified. The model offers them in one fixed order.
- Annotations.MaskLevel: GIMP's conversion of the channel values to a colour is not part of this model. Saturation at 255 in an 8-bit layer is assumed, and from id 255 on every region is painted the same white (`MaskLevelsCollide`).
- Annotations.Spin: GTK keeps the value between 1 and the upper bound. This is stated as a precondition, not modelled as clamping.
- `os.path` is modelled with its POSIX behaviour only.

## Findings

| source | as written | input that shows it | evidently intended | confidence | as-written member | corrected member |
|---|---|---|---|---|---|---|
| image-annotator.py:194-201 | the delete handler filters the ledger and removes the list row before `os.remove`; if that raises, the JSON rewrite never runs | any selected row whose mask PNG no longer exists: the window drops the record, the file keeps it, and reopening the image brings it back | the file and the ledger stay in agreement: a removal that fails leaves the window as it was | medium, not executed | Annotator.DeleteAsWritten, Annotator.DeleteAsWrittenDesyncs | Annotator.DeleteChecked, Annotator.DeleteCheckedValid |
| image-annotator.py:79-81 | repopulate converts each loaded file name and label with `str()`; under Python 2 the parsed JSON text is unicode, and `str()` raises on any character beyond ASCII, so the window is never built | save a mask under the label `café` (or for an image named `café.jpg`), close the window, and open it again | a ledger the plug-in wrote can always be reopened, whatever characters its labels and file names use | medium, not executed | Annotator.Open, Annotator.SavedNonAsciiLabelCannotReopen | Annotator.OpenKeepingText, Annotator.OpenKeepingTextReopens |

=== FILE: annotations.dfy ===
/**
 The region bookkeeping of the "Image Annotations" plug-in (image-annotations.py):
 a map from region id to label and one from region id to the exported vector
 path, the rows of the list view, the id counters behind the spin button, and
 the file names and JSON record that "Export files & quit" produces. Host calls
 (selection test, fill, selection-to-path export, PNG export) enter as parameters.
 */
module Annotations {
  import opened Common
  import opened Text

  /** A fill colour as three channel values. */
  datatype Rgb = Rgb(red: int, green: int, blue: int)

  datatype Session = Session(
    imageName: string,
    base: string,
    maskDir: string,
    annotDir: string,
    regions: map<nat, string>,
    paths: map<nat, string>,
    rows: seq<string>,
    regionId: nat,
    maxId: nat,
    spin: nat,
    upper: nat)

  datatype Refusal = NoSelection | NoLabel

  /** A refused save, or the colour the selection was filled with. */
  datatype SaveOutcome = Refused(why: Refusal) | Painted(colour: Rgb)

  datatype SaveResult = SaveResult(session: Session, outcome: SaveOutcome)

  /** The object written to the annotation file. */
  datatype JsonTop = JsonTop(image: string, mask: string, regions: map<nat, string>, paths: map<nat, string>)

  /** Everything export derives: both file names, where they go, and the JSON object. */
  datatype ExportPlan = ExportPlan(
    maskFilename: string,
    maskPath: string,
    annotFilename: string,
    annotPath: string,
    record: JsonTop)

  /** `id2rgb`: region v is painted in the grey whose three channels all equal v. */
  function IdToRgb(v: nat): (c: Rgb)
    ensures c.red == c.green == c.blue == v
  {
    Rgb(v, v, v)
  }

  /**
   The grey level an 8-bit mask layer keeps for channel value v on the 0-255
   scale: values above 255 saturate at white.
   */
  function MaskLevel(v: nat): (g: nat)
    ensures g <= 255
    ensures v <= 255 ==> g == v
    ensures 255 <= v ==> g == 255
  {
    if v <= 255 then v else 255
  }

  /**
   Two regions leave the same grey in the mask exactly when they are the same
   region or both ids are 255 or more.
   */
  lemma MaskLevelsCollide(a: nat, b: nat)
    ensures MaskLevel(IdToRgb(a).red) == MaskLevel(IdToRgb(b).red) <==> a == b || (255 <= a && 255 <= b)
  {
  }

  /** The list-view text of region v: `(v) label`. */
  function RowText(v: nat, labelText: string): string {
    "(" + NatToString(v) + ") " + labelText
  }

  /**
   A row reads back: the id is the digit run from just after `(` to the first
   `)`, and the label is what follows `) `.
   */
  lemma {:induction false} RowTextReadsBack(v: nat, labelText: string)
    ensures var t := RowText(v, labelText);
      var close := Find(t, ')');
      && |t| > 0 && t[0] == '(' && 2 <= close && close + 2 <= |t|
      && ParseNat(t[1..close]) == Some(v)
      && t[close..close + 2] == ") "
      && t[close + 2..] == labelText
  {
    var digits := NatToString(v);
    var t := RowText(v, labelText);
    DigitsEndAtFirstNonDigit(digits, ") " + labelText, ')');
    assert t[1..] == digits + (") " + labelText);
    assert Find(t, ')') == 1 + Find(t[1..], ')');
    assert t[1..1 + |digits|] == digits;
    ParseNatToString(v);
  }

  /** A row names its region and label unambiguously. */
  lemma RowTextInjective(v1: nat, l1: string, v2: nat, l2: string)
    requires RowText(v1, l1) == RowText(v2, l2)
    ensures v1 == v2 && l1 == l2
  {
    var n1, n2 := NatToString(v1), NatToString(v2);
    var t := RowText(v1, l1);
    assert t == "(" + n1 + ") " + l1;
    assert t == "(" + n2 + ") " + l2;
    DigitsEndAtFirstNonDigit(n1, ") " + l1, ')');
    DigitsEndAtFirstNonDigit(n2, ") " + l2, ')');
    assert t[1..] == n1 + (") " + l1) == n2 + (") " + l2);
    assert n1 == t[1..1 + |n1|];
    assert n2 == t[1..1 + |n2|];
    NatToStringInjective(v1, v2);
    assert l1 == t[3 + |n1|..] == l2;
  }

  /**
   Opening the window on a saved image: file name and base name, the `masks/`
   and `annotations/` directories beside the image, empty maps and list, and
   the counters and spin button at 1. Without a file name the plug-in fails.
   */
  function Open(imagePath: Option<string>): (r: Option<Session>)
    ensures r.None? <==> imagePath.None?
    ensures r.Some? ==>
      var s := r.value;
      && s.imageName == PathSplit(imagePath.value).1
      && s.base == SplitExt(s.imageName).0
      && s.regions == map[] && s.paths == map[] && s.rows == []
      && s.regionId == 1 && s.maxId == 1 && s.spin == 1 && s.upper == 1
      && s.maskDir == PathJoin(PathSplit(imagePath.value).0, "masks/")
      && s.annotDir == PathJoin(PathSplit(imagePath.value).0, "annotations/")
  {
    match imagePath
    case None => None
    case Some(path) =>
      var (dir, name) := PathSplit(path);
      Some(Session(
        name, SplitExt(name).0, PathJoin(dir, "masks/"), PathJoin(dir, "annotations/"),
        map[], map[], [], 1, 1, 1, 1))
  }

  /** The user moves the spin button; the widget keeps it between 1 and its upper bound. */
  function Spin(s: Session, v: nat): (r: Session)
    requires 1 <= v <= s.upper
    ensures r.spin == v
    ensures r.regions == s.regions && r.paths == s.paths && r.rows == s.rows
    ensures r.regionId == s.regionId && r.maxId == s.maxId && r.upper == s.upper
    ensures r.imageName == s.imageName && r.base == s.base
    ensures r.maskDir == s.maskDir && r.annotDir == s.annotDir
  {
    s.(spin := v)
  }

  /**
   "Save selected mask": refused when nothing is selected or no label is active.
   Otherwise region v, the spin button's value, is painted in grey v, its label
   and exported path are stored under v (replacing what v held), a row is added,
   and the counters move past v.
   */
  function SaveMask(s: Session, selectionEmpty: bool, active: Option<string>, vectors: string): (r: SaveResult)
    ensures selectionEmpty ==> r.outcome == Refused(NoSelection)
    ensures !selectionEmpty && active.None? ==> r.outcome == Refused(NoLabel)
    ensures r.outcome.Refused? ==> r.session == s
    ensures r.outcome.Painted? <==> !selectionEmpty && active.Some?
    ensures r.outcome.Painted? ==>
      var v, t := s.spin, r.session;
      && r.outcome.colour == IdToRgb(v)
      && v in t.regions && t.regions[v] == active.value
      && v in t.paths && t.paths[v] == vectors
      && (forall k :: k != v ==> (k in t.regions <==> k in s.regions) && (k in t.paths <==> k in s.paths))
      && (forall k :: k != v && k in s.regions ==> t.regions[k] == s.regions[k])
      && (forall k :: k != v && k in s.paths ==> t.paths[k] == s.paths[k])
      && t.rows == s.rows + [RowText(v, active.value)]
      && t.regionId == v + 1
      && s.maxId <= t.maxId && v + 1 <= t.maxId
      && (t.maxId == s.maxId || t.maxId == v + 1)
      && t.spin == t.maxId
    ensures r.session.imageName == s.imageName && r.session.base == s.base
    ensures r.session.maskDir == s.maskDir && r.session.annotDir == s.annotDir
  {
    if selectionEmpty then SaveResult(s, Refused(NoSelection))
    else match active
      case None => SaveResult(s, Refused(NoLabel))
      case Some(text) =>
        var v := s.spin;
        var next := v + 1;
        var grown := next > s.maxId;
        var maxId := if grown then next else s.maxId;
        SaveResult(
          s.(regions := s.regions[v := text],
             paths := s.paths[v := vectors],
             rows := s.rows + [RowText(v, text)],
             regionId := next,
             maxId := maxId,
             upper := if grown then maxId else s.upper,
             spin := maxId),
          Painted(IdToRgb(v)))
  }

  /**
   "Export files & quit": the mask and annotation file names are the image's
   base name with spaces turned into underscores plus `_mask.png` and
   `_annotations.json`; the JSON object names the image, the mask relative to
   the image's directory, and both maps.
   */
  function Export(s: Session): (e: ExportPlan)
    ensures ' ' !in e.maskFilename && ' ' !in e.annotFilename
    ensures e.maskFilename == ReplaceSpaces(s.base) + "_mask.png"
    ensures e.annotFilename == ReplaceSpaces(s.base) + "_annotations.json"
    ensures e.record.mask == "masks/" + e.maskFilename
    ensures e.record.image == s.imageName
    ensures e.record.regions == s.regions && e.record.paths == s.paths
    ensures e.maskPath == PathJoin(s.maskDir, e.maskFilename)
    ensures e.annotPath == PathJoin(s.annotDir, e.annotFilename)
  {
    var stem := ReplaceSpaces(s.base);
    var maskFilename := stem + "_mask.png";
    var annotFilename := stem + "_annotations.json";
    ExportPlan(
      maskFilename, PathJoin(s.maskDir, maskFilename),
      annotFilename, PathJoin(s.annotDir, annotFilename),
      JsonTop(s.imageName, "masks/" + maskFilename, s.regions, s.paths))
  }

  // ---------------------------------------------------------------------------
  // The invariant

  /** Every region id lies between 1 and the one below the largest counter value. */
  predicate IdsInRange(s: Session) {
    forall k :: k in s.regions ==> 1 <= k < s.maxId
  }

  /** Each region's current label is shown in some row. */
  predicate RegionsListed(s: Session) {
    forall k :: k in s.regions ==> RowText(k, s.regions[k]) in s.rows
  }

  predicate Valid(s: Session) {
    && 1 <= s.spin <= s.upper
    && s.upper == s.maxId
    && s.regionId <= s.maxId
    && s.regions.Keys == s.paths.Keys
    && IdsInRange(s)
    && RegionsListed(s)
    && '/' !in s.base
  }

  /** A freshly opened session satisfies the invariant. */
  lemma {:induction false} OpenValid(imagePath: string)
    ensures Valid(Open(Some(imagePath)).value)
  {
  }

  /** Moving the spin button keeps the invariant. */
  lemma SpinValid(s: Session, v: nat)
    requires Valid(s) && 1 <= v <= s.upper
    ensures Valid(Spin(s, v))
  {
  }

  /**
   Saving keeps the invariant: both maps gain the same key, the key is below the
   new maximum, the spin button shows the maximum, and the maximum never drops.
   */
  lemma {:induction false} SaveValid(s: Session, selectionEmpty: bool, active: Option<string>, vectors: string)
    requires Valid(s)
    ensures Valid(SaveMask(s, selectionEmpty, active, vectors).session)
    ensures var t := SaveMask(s, selectionEmpty, active, vectors).session;
      s.maxId <= t.maxId && t.spin <= t.upper == t.maxId
  {
  }

  /**
   Saving over an id that is already labelled replaces its label in the map,
   but the row showing the old label stays in the list beside the new one.
   */
  lemma {:induction false} OverwriteKeepsOldRow(s: Session, active: string, vectors: string)
    requires Valid(s) && s.spin in s.regions && s.regions[s.spin] != active
    ensures var t := SaveMask(s, false, Some(active), vectors).session;
      && t.regions[s.spin] == active
      && RowText(s.spin, s.regions[s.spin]) in t.rows
      && RowText(s.spin, active) in t.rows
      && |t.regions| == |s.regions|
  {
  }

  /** The exported mask and annotation files carry exactly the derived names. */
  lemma {:induction false} ExportFileNames(s: Session)
    requires '/' !in s.base
    ensures PathSplit(Export(s).maskPath).1 == Export(s).maskFilename
    ensures PathSplit(Export(s).annotPath).1 == Export(s).annotFilename
  {
    var e := Export(s);
    ReplaceSpacesKeepsSlashes(s.base);
    JoinThenSplit(s.maskDir, e.maskFilename);
    JoinThenSplit(s.annotDir, e.annotFilename);
  }

  /**
   The record's `mask` entry, read relative to the image's directory `d`, names
   exactly the mask file export writes.
   */
  lemma {:induction false} ExportRecordNamesMask(s: Session, d: string)
    requires s.maskDir == PathJoin(d, "masks/") && '/' !in s.base
    ensures PathJoin(d, Export(s).record.mask) == Export(s).maskPath
  {
    var e := Export(s);
    var f := e.maskFilename;
    ReplaceSpacesKeepsSlashes(s.base);
    assert f[0] != '/';
    if d == "" || d[|d| - 1] == '/' {
      assert PathJoin(d, "masks/" + f) == d + "masks/" + f;
    } else {
      assert PathJoin(d, "masks/" + f) == d + "/" + "masks/" + f;
      assert s.maskDir == d + "/" + "masks/";
    }
  }

  /** In an exported record every labelled region also has a path, and ids stay in range. */
  lemma ExportRecordConsistent(s: Session)
    requires Valid(s)
    ensures Export(s).record.regions.Keys == Export(s).record.paths.Keys
    ensures forall k :: k in Export(s).record.regions ==> 1 <= k < s.maxId
  {
  }
}

=== FILE: annotator.dfy ===
/**
 The annotation ledger of the "Image Annotator" plug-in (image-annotator.py):
 a list of records `{id, filename, label}`, the next id to hand out, the rows
 of the list view, the labels offered in the label selector, and the contents
 of the JSON file the ledger is written to. Host calls (selection test, mask
 layer, PNG export) and widget queries enter as parameters.
 */
module Annotator {
  import opened Common
  import opened Text

  /** One saved mask: its id, the mask file's name and the user's label. */
  datatype Annot = Annot(id: nat, filename: string, labelText: string)

  /** One list-view row: the label and the id, both as text. */
  datatype Row = Row(labelText: string, idText: string)

  /** The annotation file: freshly created and empty, or a JSON array of records. */
  datatype Stored = EmptyFile | Json(records: seq<Annot>)

  /** Where the plug-in keeps its data, derived from the image's file name. */
  datatype Paths = Paths(root: string, base: string, ext: string, annotDir: string, annotFile: string)

  datatype Window = Window(
    paths: Paths,
    annots: seq<Annot>,
    rows: seq<Row>,
    labels: seq<string>,
    currId: nat,
    disk: Stored)

  datatype Refusal = NoSelection | NoLabel

  datatype SaveOutcome = Refused(why: Refusal) | Written(maskPath: string)

  datatype SaveResult = SaveResult(window: Window, outcome: SaveOutcome)

  /**
   Why a delete aborts: nothing selected in the view, the selected row names no
   record, or the record's mask file could not be removed.
   */
  datatype DeleteError = NoRowSelected | NoMatchingRecord | MaskNotRemoved

  datatype DeleteOutcome = Raised(error: DeleteError) | Removed(record: Annot)

  datatype DeleteResult = DeleteResult(window: Window, outcome: DeleteOutcome)

  // ---------------------------------------------------------------------------
  // Names and paths

  /**
   The mask file name of record `id`: `<base>_<id>.png`.
   */
  function MaskName(base: string, id: nat): string {
    base + "_" + NatToString(id) + ".png"
  }

  /** The id can be read back from the digits between the base name's `_` and `.png`. */
  lemma MaskNameReadsBack(base: string, id: nat)
    ensures var r := MaskName(base, id);
      && |r| > |base| + 5 && r[..|base|] == base && r[|base|] == '_'
      && r[|r| - 4..] == ".png"
      && ParseNat(r[|base| + 1..|r| - 4]) == Some(id)
  {
    var r := MaskName(base, id);
    assert r[|base| + 1..|r| - 4] == NatToString(id);
    ParseNatToString(id);
  }

  /** Two saves of the same image never write the same mask file name for different ids. */
  lemma MaskNameInjective(base: string, i: nat, j: nat)
    ensures MaskName(base, i) == MaskName(base, j) <==> i == j
  {
    if MaskName(base, i) == MaskName(base, j) {
      var a := MaskName(base, i);
      var b := MaskName(base, j);
      assert |NatToString(i)| == |NatToString(j)|;
      assert NatToString(i) == a[|base| + 1..|a| - 4];
      assert NatToString(j) == b[|base| + 1..|b| - 4];
      NatToStringInjective(i, j);
    }
  }

  /**
   The data locations of an image whose directory is `root` and whose file name
   is `base` + `ext`: the annotation directory `<root>/<base>_annotations` and
   the file `<base>_annotations.json` in it.
   */
  function PathsFor(root: string, base: string, ext: string): Paths {
    var annotDir := PathJoin(root, base + "_annotations");
    Paths(root, base, ext, annotDir, PathJoin(annotDir, base + "_annotations.json"))
  }

  /** The data locations of the image at `imagePath`. */
  function DerivePaths(imagePath: string): (r: Paths)
    ensures r.root == PathSplit(imagePath).0 && r.base + r.ext == PathSplit(imagePath).1
  {
    var name := PathSplit(imagePath).1;
    PathsFor(PathSplit(imagePath).0, SplitExt(name).0, SplitExt(name).1)
  }

  /** The base name is the image's file name without its extension. */
  lemma {:induction false} DerivePathsBase(imagePath: string)
    ensures var p := DerivePaths(imagePath);
      && p.root == PathSplit(imagePath).0
      && p.base + p.ext == PathSplit(imagePath).1
      && (p.ext == "" || (p.ext[0] == '.' && '.' !in p.ext[1..]))
      && '/' !in p.base
    ensures var name, p := PathSplit(imagePath).1, DerivePaths(imagePath);
      var dot := RFind(name, '.');
      && (dot >= 0 && HasNonDot(name, 0, dot) ==> p.base == name[..dot] && p.ext == name[dot..])
      && (!(dot >= 0 && HasNonDot(name, 0, dot)) ==> p.base == name && p.ext == "")
  {
    var name := PathSplit(imagePath).1;
    assert RFind(name, '/') == -1;
  }

  /**
   For a base name without '/', the annotation directory splits into the image's
   directory and `<base>_annotations`, and the annotation file into that
   directory and `<base>_annotations.json`.
   */
  lemma {:induction false} PathsForLayout(root: string, base: string, ext: string)
    requires '/' !in base && NormalHead(root) == root
    ensures var p := PathsFor(root, base, ext);
      && PathSplit(p.annotDir) == (root, base + "_annotations")
      && PathSplit(p.annotFile) == (p.annotDir, base + "_annotations.json")
  {
    var dirName := base + "_annotations";
    var fileName := base + "_annotations.json";
    var annotDir := PathJoin(root, dirName);
    JoinThenSplit(root, dirName);
    assert annotDir[|annotDir| - 1] == dirName[|dirName| - 1] == 's';
    NormalHeadNoTrailingSlash(annotDir);
    JoinThenSplit(annotDir, fileName);
  }

  /** The annotation directory sits beside the image; the annotation file inside it. */
  lemma {:induction false} DerivePathsLayout(imagePath: string)
    ensures var p := DerivePaths(imagePath);
      && PathSplit(p.annotDir) == (p.root, p.base + "_annotations")
      && PathSplit(p.annotFile) == (p.annotDir, p.base + "_annotations.json")
  {
    DerivePathsBase(imagePath);
    NormalHeadIdempotent(imagePath);
    var p := DerivePaths(imagePath);
    PathsForLayout(p.root, p.base, p.ext);
  }

  // ---------------------------------------------------------------------------
  // Helpers over record lists

  function RowOf(a: Annot): Row {
    Row(a.labelText, NatToString(a.id))
  }

  function RowsOf(rs: seq<Annot>): (rows: seq<Row>)
    ensures |rows| == |rs|
    ensures forall k :: 0 <= k < |rs| ==> rows[k] == RowOf(rs[k])
  {
    if rs == [] then [] else [RowOf(rs[0])] + RowsOf(rs[1..])
  }

  /** The running `max(v['id'], curr_id)` of repopulate's loop, started from `start`. */
  function RunningMax(start: nat, rs: seq<Annot>): (m: nat)
    ensures start <= m
    ensures forall k :: 0 <= k < |rs| ==> rs[k].id <= m
    ensures m == start || exists k :: 0 <= k < |rs| && m == rs[k].id
    decreases |rs|
  {
    if rs == [] then start
    else
      var m := RunningMax(if rs[0].id > start then rs[0].id else start, rs[1..]);
      assert forall k :: 1 <= k < |rs| ==> rs[k] == rs[1..][k - 1];
      m
  }

  /** Each label the records carry, once. */
  function DistinctLabels(rs: seq<Annot>): (ls: seq<string>)
    ensures forall k :: 0 <= k < |rs| ==> rs[k].labelText in ls
    ensures forall l :: l in ls ==> exists k :: 0 <= k < |rs| && rs[k].labelText == l
    ensures forall i, j :: 0 <= i < j < |ls| ==> ls[i] != ls[j]
  {
    if rs == [] then []
    else
      var rest := DistinctLabels(rs[1..]);
      assert forall k :: 1 <= k < |rs| ==> rs[k] == rs[1..][k - 1];
      if rs[0].labelText in rest then rest else [rs[0].labelText] + rest
  }

  /** The list comprehension `[a for a in annots if a['id'] != id]`. */
  function RemoveId(rs: seq<Annot>, id: nat): (r: seq<Annot>)
    ensures |r| <= |rs|
    ensures forall k :: 0 <= k < |r| ==> r[k].id != id && r[k] in rs
    ensures forall k :: 0 <= k < |rs| && rs[k].id != id ==> rs[k] in r
  {
    if rs == [] then []
    else if rs[0].id == id then RemoveId(rs[1..], id)
    else [rs[0]] + RemoveId(rs[1..], id)
  }

  /** Filtering respects concatenation, so kept records stay in their original order. */
  lemma {:induction false} RemoveIdAppend(xs: seq<Annot>, ys: seq<Annot>, id: nat)
    ensures RemoveId(xs + ys, id) == RemoveId(xs, id) + RemoveId(ys, id)
    decreases |xs|
  {
    if xs == [] {
      assert xs + ys == ys;
    } else {
      assert (xs + ys)[0] == xs[0];
      assert (xs + ys)[1..] == xs[1..] + ys;
      RemoveIdAppend(xs[1..], ys, id);
      if xs[0].id != id {
        assert RemoveId(xs + ys, id) == [xs[0]] + RemoveId(xs[1..] + ys, id);
      }
    }
  }

  /** Filtering out an id no record carries changes nothing. */
  lemma {:induction false} RemoveAbsentId(rs: seq<Annot>, id: nat)
    requires forall k :: 0 <= k < |rs| ==> rs[k].id != id
    ensures RemoveId(rs, id) == rs
    decreases |rs|
  {
    if rs != [] {
      RemoveAbsentId(rs[1..], id);
    }
  }

  predicate IdsDistinct(rs: seq<Annot>) {
    forall j, k :: 0 <= j < k < |rs| ==> rs[j].id != rs[k].id
  }

  /** With distinct ids, deleting by the id of record i removes exactly record i. */
  lemma {:induction false} RemoveIdAt(rs: seq<Annot>, i: nat)
    requires IdsDistinct(rs) && i < |rs|
    ensures RemoveId(rs, rs[i].id) == rs[..i] + rs[i + 1..]
  {
    var id := rs[i].id;
    var before, after := rs[..i], rs[i + 1..];
    assert rs == before + ([rs[i]] + after);
    forall k | 0 <= k < |before|
      ensures before[k].id != id
    {
      assert before[k] == rs[k];
    }
    forall k | 0 <= k < |after|
      ensures after[k].id != id
    {
      assert after[k] == rs[i + 1 + k];
    }
    RemoveIdAppend(before, [rs[i]] + after, id);
    RemoveIdAppend([rs[i]], after, id);
    RemoveAbsentId(before, id);
    RemoveAbsentId(after, id);
    assert RemoveId([rs[i]], id) == [];
  }

  /** Index of the first record with this id, or -1: the `[...][0]` of the delete handler. */
  function FirstWithId(rs: seq<Annot>, id: nat): (i: int)
    ensures -1 <= i < |rs|
    ensures i >= 0 ==> rs[i].id == id && forall k :: 0 <= k < i ==> rs[k].id != id
    ensures i == -1 ==> forall k :: 0 <= k < |rs| ==> rs[k].id != id
  {
    if rs == [] then -1
    else if rs[0].id == id then 0
    else
      var i := FirstWithId(rs[1..], id);
      if i == -1 then -1 else i + 1
  }

  // ---------------------------------------------------------------------------
  // The invariant

  /** Every stored id is below the next id to hand out. */
  predicate IdsFresh(w: Window) {
    forall k :: 0 <= k < |w.annots| ==> w.annots[k].id < w.currId
  }

  /** The list view shows the ledger, row for record. */
  predicate RowsMirror(w: Window) {
    |w.rows| == |w.annots| && forall k :: 0 <= k < |w.rows| ==> w.rows[k] == RowOf(w.annots[k])
  }

  /** The annotation file holds exactly the in-memory ledger. */
  predicate DiskInSync(w: Window) {
    match w.disk
    case EmptyFile => w.annots == []
    case Json(rs) => rs == w.annots
  }

  /** Every stored label can be chosen in the label selector. */
  predicate LabelsOffered(w: Window) {
    forall k :: 0 <= k < |w.annots| ==> w.annots[k].labelText in w.labels
  }

  predicate Valid(w: Window) {
    && IdsFresh(w)
    && IdsDistinct(w.annots)
    && RowsMirror(w)
    && DiskInSync(w)
    && LabelsOffered(w)
  }

  // ---------------------------------------------------------------------------
  // Operations

  /** The window before any file has been looked at. */
  function Blank(paths: Paths, disk: Stored): Window {
    Window(paths, [], [], [], 0, disk)
  }

  /**
   Rebuilds the ledger from an annotation file already parsed: an empty file
   changes nothing; a JSON array appends its records and their rows, offers each
   distinct label once more, and sets the next id one above the largest id seen.
   */
  function Repopulate(w: Window, stored: Stored): (r: Window)
    ensures r.paths == w.paths && r.disk == w.disk
    ensures stored.EmptyFile? || stored.records == [] ==> r == w
    ensures stored.Json? && stored.records != [] ==>
      var rs := stored.records;
      && r.annots == w.annots + rs
      && r.rows == w.rows + RowsOf(rs)
      && w.currId < r.currId
      && (forall k :: 0 <= k < |rs| ==> rs[k].id < r.currId)
      && (r.currId == w.currId + 1 || exists k :: 0 <= k < |rs| && r.currId == rs[k].id + 1)
      && |r.labels| >= |w.labels| && r.labels[..|w.labels|] == w.labels
      && (forall k :: 0 <= k < |rs| ==> rs[k].labelText in r.labels[|w.labels|..])
      && (forall i, j :: |w.labels| <= i < j < |r.labels| ==> r.labels[i] != r.labels[j])
      && (forall l :: l in r.labels[|w.labels|..] ==> exists k :: 0 <= k < |rs| && rs[k].labelText == l)
  {
    match stored
    case EmptyFile => w
    case Json(rs) =>
      if rs == [] then w
      else
        w.(annots := w.annots + rs,
           rows := w.rows + RowsOf(rs),
           labels := w.labels + DistinctLabels(rs),
           currId := RunningMax(w.currId, rs) + 1)
  }

  /** Every loaded record's file name and label convert with Python 2's `str()`. */
  predicate RecordsAscii(rs: seq<Annot>) {
    forall k :: 0 <= k < |rs| ==> Ascii(rs[k].filename) && Ascii(rs[k].labelText)
  }

  /**
   Opening the window on an image, keeping the loaded text as it is. Without a
   file name the plug-in only complains and stops (`None`). When the annotation
   directory does not exist yet it is created with an empty annotation file
   (`existing == None`); otherwise the file found there is loaded.
   */
  function OpenKeepingText(imagePath: Option<string>, existing: Option<Stored>): (r: Option<Window>)
    ensures r.None? <==> imagePath.None?
    ensures r.Some? ==> r.value.paths == DerivePaths(imagePath.value)
    ensures r.Some? && existing.None? ==>
      r.value.annots == [] && r.value.currId == 0 && r.value.disk == EmptyFile
    ensures r.Some? && existing.Some? ==>
      r.value.disk == existing.value
      && (existing.value.Json? ==> r.value.annots == existing.value.records)
      && (existing.value.EmptyFile? ==> r.value.annots == [] && r.value.currId == 0)
    ensures r.Some? && existing.Some? ==> r.value == Loaded(r.value.paths, existing.value)
  {
    match imagePath
    case None => None
    case Some(path) =>
      var paths := DerivePaths(path);
      match existing
      case None => Some(Blank(paths, EmptyFile))
      case Some(stored) => Some(Loaded(paths, stored))
  }

  /**
   Opening the window as written: the plug-in runs on Python 2, where the
   parsed file's text is unicode and repopulate's `str()` of a file name or
   label with a character beyond ASCII raises, so no window is built.
   */
  function Open(imagePath: Option<string>, existing: Option<Stored>): (r: Option<Window>)
    ensures r.None? <==>
      || imagePath.None?
      || (existing.Some? && existing.value.Json? && !RecordsAscii(existing.value.records))
    ensures r.Some? ==> r == OpenKeepingText(imagePath, existing)
  {
    match existing
    case Some(Json(rs)) => if RecordsAscii(rs) then OpenKeepingText(imagePath, existing) else None
    case _ => OpenKeepingText(imagePath, existing)
  }

  /** Appends the entry's text to the label selector. */
  function AddLabel(w: Window, text: string): (r: Window)
    ensures r.labels == w.labels + [text]
    ensures r.annots == w.annots && r.rows == w.rows && r.currId == w.currId
    ensures r.disk == w.disk && r.paths == w.paths
  {
    w.(labels := w.labels + [text])
  }

  /** The text of the active selector entry, `None` when no entry is active. */
  function ActiveText(labels: seq<string>, active: Option<nat>): (t: Option<string>)
    ensures t.Some? ==> t.value in labels
  {
    if active.Some? && active.value < |labels| then Some(labels[active.value]) else None
  }

  /**
   "Save selected mask": refused when nothing is selected or no label is active;
   otherwise records `{curr_id, <base>_<curr_id>.png, label}`, shows its row,
   rewrites the file and moves on to the next id.
   */
  function SaveMask(w: Window, selectionEmpty: bool, active: Option<nat>): (r: SaveResult)
    ensures selectionEmpty ==> r.outcome == Refused(NoSelection)
    ensures !selectionEmpty && ActiveText(w.labels, active).None? ==> r.outcome == Refused(NoLabel)
    ensures r.outcome.Refused? ==> r.window == w
    ensures r.outcome.Written? <==> !selectionEmpty && ActiveText(w.labels, active).Some?
    ensures r.outcome.Written? ==>
      var rec := Annot(w.currId, w.paths.base + "_" + NatToString(w.currId) + ".png",
                       ActiveText(w.labels, active).value);
      && r.window.annots == w.annots + [rec]
      && r.window.rows == w.rows + [Row(rec.labelText, NatToString(w.currId))]
      && r.window.currId == w.currId + 1
      && r.window.disk == Json(r.window.annots)
      && r.window.labels == w.labels && r.window.paths == w.paths
      && r.outcome.maskPath == PathJoin(w.paths.annotDir, rec.filename)
  {
    if selectionEmpty then SaveResult(w, Refused(NoSelection))
    else match ActiveText(w.labels, active)
      case None => SaveResult(w, Refused(NoLabel))
      case Some(text) =>
        var name := MaskName(w.paths.base, w.currId);
        var rec := Annot(w.currId, name, text);
        var annots := w.annots + [rec];
        SaveResult(
          w.(annots := annots, rows := w.rows + [RowOf(rec)], currId := w.currId + 1, disk := Json(annots)),
          Written(PathJoin(w.paths.annotDir, name)))
  }

  /**
   "Delete selected mask": reads the id text of the selected row, removes every
   record with that id and the row itself, and rewrites the file. With no row
   selected, or when no record has that id, the handler raises and nothing changes.
   */
  function DeleteSelected(w: Window, row: Option<nat>): (r: DeleteResult)
    ensures r.outcome.Raised? ==> r.window == w
    ensures r.outcome.Removed? <==>
      && row.Some? && row.value < |w.rows|
      && ParseNat(w.rows[row.value].idText).Some?
      && exists k :: 0 <= k < |w.annots| && w.annots[k].id == ParseNat(w.rows[row.value].idText).value
    ensures r.outcome.Removed? ==>
      var id := ParseNat(w.rows[row.value].idText).value;
      && 0 <= FirstWithId(w.annots, id)
      && r.outcome.record == w.annots[FirstWithId(w.annots, id)]
      && r.outcome.record.id == id
      && r.window.annots == RemoveId(w.annots, id)
      && r.window.rows == w.rows[..row.value] + w.rows[row.value + 1..]
      && r.window.currId == w.currId
      && r.window.disk == Json(r.window.annots)
      && r.window.labels == w.labels && r.window.paths == w.paths
  {
    if row.None? || row.value >= |w.rows| then DeleteResult(w, Raised(NoRowSelected))
    else
      var i := row.value;
      match ParseNat(w.rows[i].idText)
      case None => DeleteResult(w, Raised(NoMatchingRecord))
      case Some(id) =>
        var first := FirstWithId(w.annots, id);
        if first < 0 then DeleteResult(w, Raised(NoMatchingRecord))
        else
          var kept := RemoveId(w.annots, id);
          DeleteResult(
            w.(annots := kept, rows := w.rows[..i] + w.rows[i + 1..], disk := Json(kept)),
            Removed(w.annots[first]))
  }

  /**
   The delete handler as written, when `os.remove` may fail (the mask file is
   already gone): the ledger and the list are updated before the removal, so a
   failing removal leaves them changed while the file is never rewritten.
   */
  function DeleteAsWritten(w: Window, row: Option<nat>, maskMissing: bool): (r: DeleteResult)
    ensures !maskMissing || DeleteSelected(w, row).outcome.Raised? ==> r == DeleteSelected(w, row)
    ensures maskMissing && DeleteSelected(w, row).outcome.Removed? ==>
      && r.outcome == Raised(MaskNotRemoved)
      && r.window.annots == DeleteSelected(w, row).window.annots
      && r.window.rows == DeleteSelected(w, row).window.rows
      && r.window.disk == w.disk
      && r.window.currId == w.currId && r.window.labels == w.labels && r.window.paths == w.paths
  {
    var done := DeleteSelected(w, row);
    if maskMissing && done.outcome.Removed? then
      DeleteResult(done.window.(disk := w.disk), Raised(MaskNotRemoved))
    else done
  }

  /**
   The delete handler with the removal done before anything else changes: when
   the mask file cannot be removed, the handler raises and the window is left as
   it was; otherwise it is the ordinary delete.
   */
  function DeleteChecked(w: Window, row: Option<nat>, maskMissing: bool): (r: DeleteResult)
    ensures r.outcome.Raised? ==> r.window == w
    ensures !maskMissing ==> r == DeleteSelected(w, row)
    ensures r.outcome.Removed? <==> !maskMissing && DeleteSelected(w, row).outcome.Removed?
  {
    var done := DeleteSelected(w, row);
    if maskMissing && done.outcome.Removed? then DeleteResult(w, Raised(MaskNotRemoved)) else done
  }

  // ---------------------------------------------------------------------------
  // Properties

  /** The ledger a freshly opened window holds after loading `stored`. */
  function Loaded(paths: Paths, stored: Stored): Window {
    Repopulate(Blank(paths, stored), stored)
  }

  /**
   Loading a non-empty file resumes numbering one above the largest id in it;
   loading an empty file or an empty array starts from id 0 with an empty ledger.
   */
  lemma {:induction false} LoadResumesAfterLargestId(paths: Paths, stored: Stored)
    ensures var w := Loaded(paths, stored);
      if stored.Json? && stored.records != [] then
        && (forall k :: 0 <= k < |stored.records| ==> stored.records[k].id < w.currId)
        && (exists k :: 0 <= k < |stored.records| && w.currId == stored.records[k].id + 1)
      else
        w.annots == [] && w.currId == 0
  {
    if stored.Json? && stored.records != [] {
      var m := RunningMax(0, stored.records);
      assert Loaded(paths, stored).currId == m + 1;
      if m == 0 {
        assert stored.records[0].id <= m;
      }
    }
  }

  /**
   Opening the window on a non-empty annotation file the plug-in can read
   resumes numbering one above the largest id in it.
   */
  lemma {:induction false} OpenResumesAfterLargestId(imagePath: string, stored: Stored)
    requires stored.Json? && stored.records != [] && RecordsAscii(stored.records)
    ensures Open(Some(imagePath), Some(stored)).Some?
    ensures var w := Open(Some(imagePath), Some(stored)).value;
      && (forall k :: 0 <= k < |stored.records| ==> stored.records[k].id < w.currId)
      && (exists k :: 0 <= k < |stored.records| && w.currId == stored.records[k].id + 1)
  {
    LoadResumesAfterLargestId(DerivePaths(imagePath), stored);
  }

  /** Loading a file whose ids are distinct establishes the invariant. */
  lemma {:induction false} LoadedValid(paths: Paths, stored: Stored)
    requires stored.Json? ==> IdsDistinct(stored.records)
    ensures Valid(Loaded(paths, stored))
  {
  }

  /** Opening the window establishes the invariant, given a file whose ids are distinct. */
  lemma {:induction false} OpenValid(imagePath: Option<string>, existing: Option<Stored>)
    requires existing.Some? && existing.value.Json? ==> IdsDistinct(existing.value.records)
    ensures Open(imagePath, existing).Some? ==> Valid(Open(imagePath, existing).value)
  {
  }

  /** Adding a label keeps the invariant. */
  lemma {:induction false} AddLabelValid(w: Window, text: string)
    requires Valid(w)
    ensures Valid(AddLabel(w, text))
  {
  }

  /** Saving keeps the invariant: the new id is fresh and the counter moves past it. */
  lemma {:induction false} SaveValid(w: Window, selectionEmpty: bool, active: Option<nat>)
    requires Valid(w)
    ensures Valid(SaveMask(w, selectionEmpty, active).window)
  {
  }

  /**
   Deleting the record shown in row i removes exactly that record, keeps the
   others in their order, and reports it.
   */
  lemma {:induction false} DeleteRowRemovesItsRecord(w: Window, i: nat)
    requires Valid(w) && i < |w.rows|
    ensures var r := DeleteSelected(w, Some(i));
      && r.outcome == Removed(w.annots[i])
      && r.window.annots == w.annots[..i] + w.annots[i + 1..]
  {
    var id := w.annots[i].id;
    assert w.rows[i].idText == NatToString(id);
    ParseNatToString(id);
    RemoveIdAt(w.annots, i);
    var first := FirstWithId(w.annots, id);
    assert w.annots[i].id == id;
    assert first != -1;
    assert w.annots[first].id == id;
  }

  /** Dropping record i and its row from a valid window, and writing the rest, keeps the invariant. */
  lemma {:induction false} DropValid(w: Window, i: nat)
    requires Valid(w) && i < |w.annots|
    ensures var kept := w.annots[..i] + w.annots[i + 1..];
      Valid(w.(annots := kept, rows := w.rows[..i] + w.rows[i + 1..], disk := Json(kept)))
  {
  }

  /** Deleting keeps the invariant. */
  lemma {:induction false} DeleteValid(w: Window, row: Option<nat>)
    requires Valid(w)
    ensures Valid(DeleteSelected(w, row).window)
  {
    var r := DeleteSelected(w, row);
    if r.outcome.Removed? {
      var i := row.value;
      DeleteRowRemovesItsRecord(w, i);
      DropValid(w, i);
      var kept := w.annots[..i] + w.annots[i + 1..];
      assert r.window == w.(annots := kept, rows := w.rows[..i] + w.rows[i + 1..], disk := Json(kept));
    }
  }

  /**
   As written, deleting row i whose mask file is already gone leaves the file out
   of step with the ledger: the record is gone from the window but still in the
   file, so it comes back when the image is reopened.
   */
  lemma {:induction false} DeleteAsWrittenDesyncs(w: Window, i: nat)
    requires Valid(w) && i < |w.rows|
    ensures var r := DeleteAsWritten(w, Some(i), true);
      && !DiskInSync(r.window)
      && w.annots[i] !in r.window.annots
      && w.annots[i] in Loaded(w.paths, r.window.disk).annots
  {
    var r := DeleteAsWritten(w, Some(i), true);
    var id := w.annots[i].id;
    DeleteRowRemovesItsRecord(w, i);
    assert |r.window.annots| < |w.annots|;
    assert w.disk == Json(w.annots);
    assert r.window.annots == RemoveId(w.annots, id);
    ReopenSameLedger(w);
  }

  /**
   Even as written, a delete keeps every part of the invariant but the file:
   ids stay fresh and distinct, rows mirror records, labels stay offered, and
   the counter does not move.
   */
  lemma {:induction false} DeleteAsWrittenKeepsFreshness(w: Window, row: Option<nat>, maskMissing: bool)
    requires Valid(w)
    ensures var r := DeleteAsWritten(w, row, maskMissing).window;
      && IdsFresh(r) && IdsDistinct(r.annots) && RowsMirror(r) && LabelsOffered(r)
      && r.currId == w.currId
  {
    DeleteValid(w, row);
  }

  /** Deleting with the removal checked first keeps the invariant. */
  lemma {:induction false} DeleteCheckedValid(w: Window, row: Option<nat>, maskMissing: bool)
    requires Valid(w)
    ensures Valid(DeleteChecked(w, row, maskMissing).window)
  {
    DeleteValid(w, row);
  }

  /**
   As written, saving a mask under a label with a character beyond ASCII writes
   a file the plug-in cannot open again: reopening the image builds no window.
   */
  lemma {:induction false} SavedNonAsciiLabelCannotReopen(w: Window, active: Option<nat>, imagePath: string)
    requires ActiveText(w.labels, active).Some? && !Ascii(ActiveText(w.labels, active).value)
    ensures Open(Some(imagePath), Some(SaveMask(w, false, active).window.disk)).None?
  {
    var r := SaveMask(w, false, active).window;
    var k := |r.annots| - 1;
    assert r.annots[k].labelText == ActiveText(w.labels, active).value;
    assert !RecordsAscii(r.annots);
  }

  /**
   Keeping the loaded text as it is, any file a window holds in step with its
   ledger reopens as that ledger, whatever characters its labels use.
   */
  lemma {:induction false} OpenKeepingTextReopens(w: Window, imagePath: string)
    requires DiskInSync(w)
    ensures OpenKeepingText(Some(imagePath), Some(w.disk)).Some?
    ensures OpenKeepingText(Some(imagePath), Some(w.disk)).value.annots == w.annots
  {
    ReopenSameLedger(w);
  }

  /** Rows that mirror the ledger are the ledger's rows. */
  lemma MirrorIsRowsOf(w: Window)
    requires RowsMirror(w)
    ensures w.rows == RowsOf(w.annots)
  {
  }

  /** What a valid window has written to disk loads back as the same ledger. */
  lemma {:induction false} ReopenSameLedger(w: Window)
    requires DiskInSync(w)
    ensures Loaded(w.paths, w.disk).annots == w.annots
  {
  }

  /** ... and shows the same rows. */
  lemma {:induction false} ReopenSameRows(w: Window)
    requires RowsMirror(w) && DiskInSync(w)
    ensures Loaded(w.paths, w.disk).rows == w.rows
  {
  }

  /** ... and resumes numbering no later than where the session stood. */
  lemma {:induction false} ReopenCounterNotAhead(w: Window)
    requires IdsFresh(w) && DiskInSync(w)
    ensures Loaded(w.paths, w.disk).currId <= w.currId
  {
  }

  // ---------------------------------------------------------------------------
  // Sessions

  /** One user action on the window. */
  datatype Event =
    | AddLabelClicked(text: string)
    | SaveClicked(selectionEmpty: bool, active: Option<nat>)
    | DeleteClicked(row: Option<nat>, maskMissing: bool)

  function Step(w: Window, e: Event): Window {
    match e
    case AddLabelClicked(text) => AddLabel(w, text)
    case SaveClicked(selectionEmpty, active) => SaveMask(w, selectionEmpty, active).window
    case DeleteClicked(row, maskMissing) => DeleteChecked(w, row, maskMissing).window
  }

  function Run(w: Window, es: seq<Event>): Window
    decreases |es|
  {
    if es == [] then w else Run(Step(w, es[0]), es[1..])
  }

  /**
   Over any sequence of clicks the invariant holds and the id counter never goes
   back, so no id is handed out twice in one session.
   */
  lemma {:induction false} RunValid(w: Window, es: seq<Event>)
    requires Valid(w)
    ensures Valid(Run(w, es))
    ensures w.currId <= Run(w, es).currId
    decreases |es|
  {
    if es != [] {
      var next := Step(w, es[0]);
      match es[0] {
        case AddLabelClicked(text) => AddLabelValid(w, text);
        case SaveClicked(selectionEmpty, active) => SaveValid(w, selectionEmpty, active);
        case DeleteClicked(row, maskMissing) => DeleteCheckedValid(w, row, maskMissing);
      }
      RunValid(next, es[1..]);
    }
  }
}

=== FILE: common.dfy ===
/** Small shared datatypes. */
module Common {

  /** A value that may be absent: Python's `None` or a present value. */
  datatype Option<+T> = None | Some(value: T)
}

=== FILE: text.dfy ===
/**
 The string work both plug-ins do: Python's `str(n)` and `int(s)` on
 non-negative integers, `str.replace(' ', '_')`, `str.rfind`, and the POSIX
 flavour of `os.path.split`, `os.path.join` and `os.path.splitext`.
 */
module Text {
  import opened Common

  predicate IsDigit(c: char) {
    '0' <= c <= '9'
  }

  predicate AllDigits(s: string) {
    forall i :: 0 <= i < |s| ==> IsDigit(s[i])
  }

  /** The character of the decimal digit d. */
  function DigitChar(d: nat): (c: char)
    requires d < 10
    ensures IsDigit(c)
  {
    ('0' as int + d) as char
  }

  /** The decimal value of a digit character; inverse of DigitChar. */
  function DigitValue(c: char): (d: nat)
    requires IsDigit(c)
    ensures d < 10 && DigitChar(d) == c
  {
    c as int - '0' as int
  }

  /** Python's `str(n)` for a non-negative int: its shortest decimal spelling. */
  function NatToString(n: nat): (s: string)
    ensures |s| >= 1 && AllDigits(s)
    ensures s[0] == '0' ==> n == 0 && |s| == 1
    decreases n
  {
    if n < 10 then [DigitChar(n)] else NatToString(n / 10) + [DigitChar(n % 10)]
  }

  /** The number a string of decimal digits spells. */
  function DigitsValue(s: string): nat
    requires AllDigits(s)
  {
    if |s| == 0 then 0 else DigitsValue(s[..|s| - 1]) * 10 + DigitValue(s[|s| - 1])
  }

  /** Python's `int(s)` restricted to plain decimal digits; `None` where `int` raises. */
  function ParseNat(s: string): (r: Option<nat>)
    ensures r.Some? <==> |s| > 0 && AllDigits(s)
  {
    if |s| > 0 && AllDigits(s) then Some(DigitsValue(s)) else None
  }

  /** Reading back what `str(n)` wrote gives n. */
  lemma {:induction false} ParseNatToString(n: nat)
    ensures ParseNat(NatToString(n)) == Some(n)
    decreases n
  {
    var s := NatToString(n);
    assert DigitValue(DigitChar(n % 10)) == n % 10;
    if n >= 10 {
      ParseNatToString(n / 10);
      assert s[..|s| - 1] == NatToString(n / 10);
      assert DigitsValue(s) == DigitsValue(NatToString(n / 10)) * 10 + n % 10;
    } else {
      assert s[..|s| - 1] == [];
      assert DigitsValue(s) == n;
    }
  }

  /** Distinct numbers have distinct decimal spellings. */
  lemma NatToStringInjective(a: nat, b: nat)
    ensures NatToString(a) == NatToString(b) <==> a == b
  {
    if NatToString(a) == NatToString(b) {
      ParseNatToString(a);
      ParseNatToString(b);
    }
  }

  /** Python's `s.replace(' ', '_')`. */
  function ReplaceSpaces(s: string): (r: string)
    ensures |r| == |s|
    ensures forall i :: 0 <= i < |s| ==> r[i] == (if s[i] == ' ' then '_' else s[i])
    ensures ' ' !in r
  {
    if |s| == 0 then ""
    else ReplaceSpaces(s[..|s| - 1]) + [if s[|s| - 1] == ' ' then '_' else s[|s| - 1]]
  }

  /** Replacing spaces neither adds nor removes a '/'. */
  lemma ReplaceSpacesKeepsSlashes(s: string)
    ensures '/' in ReplaceSpaces(s) <==> '/' in s
  {
  }

  /** The first index holding c, or |s| when there is none. */
  function Find(s: string, c: char): (i: nat)
    ensures i <= |s|
    ensures i < |s| ==> s[i] == c
    ensures forall j :: 0 <= j < i ==> s[j] != c
  {
    if |s| == 0 then 0
    else if s[0] == c then 0
    else 1 + Find(s[1..], c)
  }

  /** In a decimal number followed by a non-digit, the number ends at that non-digit. */
  lemma DigitsEndAtFirstNonDigit(n: string, rest: string, c: char)
    requires AllDigits(n) && !IsDigit(c) && |rest| > 0 && rest[0] == c
    ensures Find(n + rest, c) == |n|
  {
    var s := n + rest;
    assert s[|n|] == c;
    assert forall j :: 0 <= j < |n| ==> s[j] == n[j] && IsDigit(s[j]);
  }

  /** Python's `s.rfind(c)`: the last index holding c, or -1 when there is none. */
  function RFind(s: string, c: char): (i: int)
    ensures -1 <= i < |s|
    ensures i >= 0 ==> s[i] == c
    ensures forall j :: i < j < |s| ==> s[j] != c
  {
    if |s| == 0 then -1
    else if s[|s| - 1] == c then |s| - 1
    else RFind(s[..|s| - 1], c)
  }

  /** Text Python 2's `str()` can convert without an encoding error: code points below 128. */
  predicate Ascii(s: string) {
    forall i :: 0 <= i < |s| ==> s[i] as int < 128
  }

  predicate AllSlashes(s: string) {
    forall i :: 0 <= i < |s| ==> s[i] == '/'
  }

  /** Python's `s.rstrip('/')`. */
  function RStripSlashes(s: string): (r: string)
    ensures |r| <= |s| && r == s[..|r|]
    ensures forall j :: |r| <= j < |s| ==> s[j] == '/'
    ensures |r| == 0 || r[|r| - 1] != '/'
  {
    if |s| > 0 && s[|s| - 1] == '/' then RStripSlashes(s[..|s| - 1]) else s
  }

  /** The head `posixpath.split` returns: trailing slashes removed unless the head is only slashes. */
  function NormalHead(head: string): string {
    if head != "" && !AllSlashes(head) then RStripSlashes(head) else head
  }

  /**
   `posixpath.split(p)`: the tail is everything after the last '/', the head
   everything before it with its trailing slashes removed (kept when the head is
   nothing but slashes).
   */
  function PathSplit(p: string): (r: (string, string))
    ensures '/' !in r.1
    ensures |r.0| + |r.1| <= |p| && p[..|r.0|] == r.0 && p[|p| - |r.1|..] == r.1
    ensures forall j :: |r.0| <= j < |p| - |r.1| ==> p[j] == '/'
    ensures |r.1| < |p| ==> p[|p| - |r.1| - 1] == '/'
    ensures r.0 == "" || AllSlashes(r.0) || r.0[|r.0| - 1] != '/'
    ensures AllSlashes(p[..|p| - |r.1|]) ==> r.0 == p[..|p| - |r.1|]
  {
    var i := RFind(p, '/') + 1;
    (NormalHead(p[..i]), p[i..])
  }

  /**
   `posixpath.join(a, b)` with one component to add: an absolute b replaces a;
   otherwise b follows a, with one '/' between them unless a is empty or
   already ends in '/'.
   */
  function PathJoin(a: string, b: string): string {
    if |b| > 0 && b[0] == '/' then b
    else if a == "" || a[|a| - 1] == '/' then a + b
    else a + "/" + b
  }

  /** What `posixpath.join(a, b)` returns, described by its parts. */
  lemma PathJoinShape(a: string, b: string)
    ensures var r := PathJoin(a, b);
      && |r| >= |b| && r[|r| - |b|..] == b
      && (|b| > 0 && b[0] == '/' ==> r == b)
      && (!(|b| > 0 && b[0] == '/') ==>
          && |r| >= |a| && r[..|a|] == a
          && (a == "" || a[|a| - 1] == '/' <==> |r| == |a| + |b|)
          && (|r| == |a| + |b| || (|r| == |a| + |b| + 1 && r[|a|] == '/')))
  {
  }

  /** Splitting a joined path gives back the directory (as split normalises it) and the name. */
  lemma JoinThenSplit(a: string, b: string)
    requires |b| > 0 && '/' !in b
    ensures PathSplit(PathJoin(a, b)) == (NormalHead(a), b)
  {
    var p := PathJoin(a, b);
    if a == "" {
      assert p == b;
      assert RFind(p, '/') == -1;
    } else if a[|a| - 1] == '/' {
      assert p == a + b;
      var i := RFind(p, '/');
      assert p[|a| - 1] == '/';
      assert i == |a| - 1;
      assert p[..i + 1] == a;
    } else {
      assert p == a + "/" + b;
      var i := RFind(p, '/');
      assert p[|a|] == '/';
      assert i == |a|;
      assert p[..i + 1] == a + "/";
      assert (a + "/")[|a| - 1] == a[|a| - 1] != '/';
      assert !AllSlashes(a + "/");
      assert RStripSlashes(a + "/") == RStripSlashes(a);
    }
  }

  /** A head with no trailing slash is already normal. */
  lemma NormalHeadNoTrailingSlash(h: string)
    requires h != "" && h[|h| - 1] != '/'
    ensures NormalHead(h) == h
  {
  }

  /** A head `posixpath.split` returned is left as it is by a second normalisation. */
  lemma NormalHeadIdempotent(p: string)
    ensures NormalHead(PathSplit(p).0) == PathSplit(p).0
  {
  }

  predicate HasNonDot(s: string, lo: int, hi: int)
    requires 0 <= lo <= hi <= |s|
  {
    exists j :: lo <= j < hi && s[j] != '.'
  }

  /**
   `posixpath.splitext(p)`: (root, ext) where ext is the final component's last
   dot and what follows it, unless everything before that dot in the component
   is dots (a hidden file such as `.bashrc` has no extension).
   */
  function SplitExt(p: string): (r: (string, string))
    ensures r.0 + r.1 == p
    ensures r.1 == "" || (r.1[0] == '.' && '.' !in r.1[1..] && '/' !in r.1)
    ensures r.1 != "" ==> HasNonDot(p, RFind(p, '/') + 1, |r.0|)
    ensures var sep, dot := RFind(p, '/'), RFind(p, '.');
      r.1 != "" <==> dot > sep && HasNonDot(p, sep + 1, dot)
  {
    var sep := RFind(p, '/');
    var dot := RFind(p, '.');
    if dot > sep && HasNonDot(p, sep + 1, dot) then (p[..dot], p[dot..]) else (p, "")
  }
}
